=== FILE: README.md ===
# fastmcp-github-oauth: startup configuration and tool results

A Dafny model of the hand-written logic in
`src/fastmcp_github_oauth_example/server.py`, an MCP server whose callers
authenticate through GitHub OAuth. The model covers two pieces:

- **Startup.** `create_server` checks that `GITHUB_CLIENT_ID` and
  `GITHUB_CLIENT_SECRET` are set and non-empty. It reports every missing one in a single
  `ValueError`, then builds the `GitHubProvider` arguments: client id,
  client secret, `BASE_URL` with its default, the redirect path and the
  required scope `user:email`. `main` then reads `PORT` through `int()`
  and `HOST`, and either reaches `mcp.run` or exits with status 1.
- **Tool results.** The four tools `get_user_info`, `get_server_info`,
  `get_oauth_status` and `ping` are pure projections from the access
  token's claims and the environment to the returned dictionary.

The environment is an immutable `map<string, string>`. An unset variable
is a missing key, and a variable set to the empty string is present with
value `""`. Startup is the pure function `Entry.Startup(env)`, whose result
is `Run(server, host, port)` or `Exit(1, reason)`. The token's claims are a
`map<string, Value>` handed to each tool as a parameter. Here `Value` is a
JSON-like datatype, and `Null` stands for Python's `None`.

Modules:

- `Wrappers`: `Option` and `Result`.
- `Env`: the `os.getenv` semantics, with and without a default, and Python
  truthiness of a variable.
- `Text`: `", ".join` and substring containment.
- `PyInt`: a simplified base-10 `int()` and its inverse `FormatInt`.
  - It strips ASCII whitespace.
  - It accepts one optional sign.
  - It accepts ASCII digits, with single underscores allowed between digits.
- `Server`: `create_server`.
- `Tools`: the four tool bodies.
- `Entry`: `main`.

The tool bodies read the environment each time they are called. The model
passes them the same environment that startup validated, which assumes the
environment does not change after startup.

A few facts about `server.py` that the model keeps:

- The required scopes are the list `["user:email"]`.
- `get_oauth_status` reads `GITHUB_CLIENT_ID` and `BASE_URL` from the
  environment each time it is called. It is not handed the validated
  configuration.
- `main` converts `PORT` with `int()` and never checks its range. Negative
  ports and ports above 65535 are passed to `mcp.run` unchanged.

## Model

| member | source | states |
|---|---|---|
| `Env.Getenv` | src/fastmcp_github_oauth_example/server.py:36-37 | `os.getenv(name)` yields a value exactly when the variable is set, and that value is the variable's string, empty or not. |
| `Env.GetenvOr` | src/fastmcp_github_oauth_example/server.py:118-119 | `os.getenv(name, default)` gives the variable's value whenever it is set, including `""`, and the default only when it is unset. The same rule gives the `BASE_URL` default at lines 38 and 99. |
| `Env.Truthy` | src/fastmcp_github_oauth_example/server.py:27 | A variable passes the truthiness test exactly when `os.getenv` returns neither `None` nor `""`. |
| `Text.Join` | src/fastmcp_github_oauth_example/server.py:31 | `", ".join` of no names is empty. Otherwise the result starts with the first name and is as long as all names plus one separator between each neighbouring pair. |
| `Server.MissingVars` | src/fastmcp_github_oauth_example/server.py:26-27 | A name is in the missing list exactly when it is one of the checked names and is unset or empty. The list is never longer than the checked names, and it has the same length exactly when every name is missing. |
| `Server.CreateServer` | src/fastmcp_github_oauth_example/server.py:26-41 | Fails exactly when the client id or the secret is unset or empty. On failure the error lists the missing ones in declared order (id before secret). On success the provider gets exactly the two non-empty environment values, the `BASE_URL` value if set (even if empty) or `http://localhost:8000` otherwise, the redirect path `/auth/callback` and the scopes `["user:email"]`. |
| `Server.ErrorNamesEveryMissingVar` | src/fastmcp_github_oauth_example/server.py:27-32 | Every missing required variable makes validation fail, and it is named in the error message. All missing variables are reported at once, not just the first. |
| `Server.ErrorMessages` | src/fastmcp_github_oauth_example/server.py:30-32 | The three possible messages are the prefix followed by the missing names, joined with `", "`. |
| `Server.EmptyBaseUrlKept` | src/fastmcp_github_oauth_example/server.py:27-38 | A `BASE_URL` set to `""` is passed on as `""`, while the same empty value for `GITHUB_CLIENT_ID` fails validation. |
| `Text.JoinContainsEach` | src/fastmcp_github_oauth_example/server.py:31 | Each item given to `", ".join` occurs verbatim in the joined string. |
| `PyInt.ParseInt` | src/fastmcp_github_oauth_example/server.py:118 | Text that parses consists, once stripped, only of digits and underscores, with an optional sign at the front and a digit at the end. So `"8000abc"`, `"80.0"` and `"0x1F40"` are rejected, as `int()` raises on them. A non-empty string of ASCII digits always parses. A negative result requires that the stripped text start with `-`. |
| `PyInt.PlusSignKeepsValue` | src/fastmcp_github_oauth_example/server.py:118 | A leading `+` before well-formed digits is accepted and leaves the value unchanged. |
| `PyInt.LeadingZeroKeepsValue` | src/fastmcp_github_oauth_example/server.py:118 | A leading `0` before well-formed digits is accepted and leaves the value unchanged, as base-10 `int()` allows leading zeros. |
| `PyInt.UnderscoreKeepsValue` | src/fastmcp_github_oauth_example/server.py:118 | A single `_` between two non-empty digit strings is accepted and leaves the value unchanged. |
| `PyInt.ParseFormat` | src/fastmcp_github_oauth_example/server.py:118 | In the model, parsing the canonical spelling of any integer gives that integer back, including negative values and values above 65535. CPython's digit limit is not part of this round trip (see "## Left out"). |
| `PyInt.CanonicalParse` | src/fastmcp_github_oauth_example/server.py:118 | A digit string with no leading zero parses, and formatting the parsed value gives back the same string. This is the converse of `ParseFormat`. |
| `PyInt.BlankDoesNotParse` | src/fastmcp_github_oauth_example/server.py:118 | An empty or all-whitespace string is rejected, as `int("")` raises. |
| `PyInt.SurroundingSpaceIgnored` | src/fastmcp_github_oauth_example/server.py:118 | Whitespace before and after the text does not change the parse result. |
| `Entry.Startup` | src/fastmcp_github_oauth_example/server.py:114-134 | `mcp.run` is reached exactly when both credentials are non-empty and `PORT` is unset or parses. Every other outcome is exit status 1. A credential failure is reported as the configuration error, whatever `PORT` holds. With valid credentials and a `PORT` that does not parse, the exit reason is exactly the invalid port carrying that `PORT` text. On a run, the server is the one `create_server` built. The port is 8000 when `PORT` is unset and otherwise its parsed value. The host is `0.0.0.0` when `HOST` is unset and otherwise its value. |
| `Entry.PortNotRangeChecked` | src/fastmcp_github_oauth_example/server.py:118-130 | With valid credentials, a `PORT` holding the decimal spelling `str(port)` of any integer, negative or above 65535, passes that integer to `mcp.run`. No range check exists. |
| `Entry.SamePortValueSameOutcome` | src/fastmcp_github_oauth_example/server.py:118-130 | Two `PORT` texts that `int()` reads as the same number give the same outcome, whatever other spelling is used. |
| `Entry.PortSpellingsOf8000` | src/fastmcp_github_oauth_example/server.py:118 | `"08000"`, `"+8000"`, `"8_000"` and `" 8000\n"` all read as 8000. |
| `Entry.BlankPortExits` | src/fastmcp_github_oauth_example/server.py:118-134 | A `PORT` that is set but blank does not fall back to 8000. It ends in exit status 1 and `mcp.run` is never reached. |
| `Entry.ConfigCheckedBeforePort` | src/fastmcp_github_oauth_example/server.py:116-118 | When a credential is missing, the exit reason is the configuration error whatever `PORT` holds. Validation happens before the port is read. |
| `Tools.ProjectUserInfo` | src/fastmcp_github_oauth_example/server.py:54-68 | The projected record has exactly the listed keys, and each value is the key's source claim or `None` if that claim is absent. |
| `Tools.Claim` | src/fastmcp_github_oauth_example/server.py:55-67 | `claims.get(name)` is the claim's value when the claim is present. The result is `None` exactly when the claim is absent or is itself `None`. |
| `Tools.UserInfo` | src/fastmcp_github_oauth_example/server.py:53-68 | `get_user_info` has exactly the 13 listed keys. Each value is the claim of the same name, except `github_user`, which is read from `login`. An absent claim becomes `None`. |
| `Tools.UserInfoSize` | src/fastmcp_github_oauth_example/server.py:54-68 | The `get_user_info` result has exactly 13 entries. |
| `Tools.UserInfoReadsOnlySources` | src/fastmcp_github_oauth_example/server.py:54-68 | Two tokens that agree on the 13 source claims give the same `get_user_info` result. |
| `Tools.ServerInfo` | src/fastmcp_github_oauth_example/server.py:71-86 | `get_server_info` has the 8 listed keys, version `0.1.0` and the endpoints `/mcp/`, `/health` and `/auth/callback`. |
| `Tools.OAuthStatus` | src/fastmcp_github_oauth_example/server.py:89-100 | `get_oauth_status` has the 7 listed keys and `authenticated` is always true. `user` is the `login` claim, and `scopes` is the `scopes` claim or `[]` if absent. `client_id` is the environment value or `None`. `base_url` is the `BASE_URL` value if set, even if empty, and otherwise `http://localhost:8000`. |
| `Tools.OAuthStatusHidesSecret` | src/fastmcp_github_oauth_example/server.py:90-100 | Changing or unsetting `GITHUB_CLIENT_SECRET` leaves the `get_oauth_status` result unchanged, so the secret cannot appear in it. |
| `Tools.OAuthStatusAgreesWithProvider` | src/fastmcp_github_oauth_example/server.py:35-41 | For a configuration that `create_server` accepts, `get_oauth_status` reports the same client id and base URL that were given to the OAuth provider. |
| `Tools.PingReply` | src/fastmcp_github_oauth_example/server.py:103-109 | `ping` returns the keys `message`, `timestamp` and `server`, with `message` equal to `"pong"`. |
| `Tools.Call` | src/fastmcp_github_oauth_example/server.py:50-109 | Each tool's result has that tool's fixed key set. `get_server_info` and `ping` return the same record whatever the token and environment. |

## Left out

- Token verification, scope enforcement, tool registration and dispatch
  belong to FastMCP and `GitHubProvider`, which are not part of this model.
  Obtaining the token with `get_access_token` is not modelled either. The
  tools receive the claims of a token that has already been accepted.
- The `/health` route (server.py:11-19) is HTTP plumbing around a constant
  record. The model keeps only its path, among the server's routes.
- `mcp.run`, the HTTP transport, the `print` banners and the async
  machinery are I/O. The generic `except Exception` branch (server.py:135-137)
  catches failures raised only inside those external calls, so it is not
  modelled.
- `PyInt.ParseInt` is a simplified Python `int()` with these differences:
  - Non-ASCII decimal digits are not accepted.
  - Whitespace other than space, tab, line feed, vertical tab, form feed
    and carriage return is not stripped. For example, `\x1c`-`\x1f` and
    the no-break space are not stripped.
  - CPython accepts both of these.
  - CPython 3.11 and later reject strings with more than
    `sys.get_int_max_str_digits()` digits, 4300 by default. The model has
    no such limit. A `PORT` of 4301 digits therefore exits 1 in the
    program but reaches `Run` in the model.
- `PyInt.ParseFormat`: the round trip holds for the model's parser. In
  CPython 3.11 and later, both `str(i)` and `int()` raise for integers with
  more than 4300 digits.
- `Entry.Startup`: `Run` records the arguments that would be passed to
  `mcp.run`. It does not claim the server then starts. A port that cannot
  be bound, or any exception raised inside `GitHubProvider(...)`,
  `FastMCP(...)`, the banner `print` calls (server.py:121-128) or `mcp.run`,
  also ends in exit status 1 (server.py:131-137). For example, printing
  the banner's emoji to a stdout that is not UTF-8 raises
  `UnicodeEncodeError`, a `ValueError`. The model assumes those calls raise
  nothing. Its "runs exactly
  when" holds only under that assumption.
- `Entry.Startup` records why the process exits, as a datatype. It does not
  record the printed text. The text of `int()`'s own `ValueError` message
  is not modelled.
- `Tools.Record` is an unordered map. The key order of the returned
  dictionaries, which Python keeps as written, is not modelled. Nothing in
  `server.py` relies on it.
- `__init__.py` holds only version and author constants and re-exports.

=== FILE: entry.dfy ===
/** `main`: validate the configuration through `create_server`, read the
    port and host, and either reach `mcp.run` or exit with status 1.
    Starting the listener (`mcp.run`) and printing the banners are I/O and
    are not modelled: the outcome records what would be run, or why the
    process exits. */
module Entry {
  import opened Wrappers
  import opened Env
  import Server
  import PyInt

  const PortVar: string := "PORT"
  const HostVar: string := "HOST"
  const DefaultPort: string := "8000"
  const DefaultHost: string := "0.0.0.0"

  /** The `ValueError` that `main` catches: raised by `create_server`, or
      by `int()` on the port text. */
  datatype ExitReason =
    | ConfigInvalid(error: Server.ConfigError)
    | InvalidPort(text: string)

  datatype Outcome =
    | Run(server: Server.ServerConfig, host: string, port: int)
    | Exit(status: int, reason: ExitReason)

  /** `main`. The configuration is validated first; the port is parsed only
      once it is valid; the port is not range-checked. */
  function Startup(env: Environment): (r: Outcome)
    ensures r.Exit? ==> r.status == 1
    ensures r.Run? <==>
      && Truthy(env, Server.ClientIdVar) && Truthy(env, Server.ClientSecretVar)
      && (PortVar !in env || PyInt.ParseInt(env[PortVar]).Some?)
    ensures !Truthy(env, Server.ClientIdVar) || !Truthy(env, Server.ClientSecretVar) ==>
      r == Exit(1, ConfigInvalid(Server.CreateServer(env).error))
    ensures (&& Truthy(env, Server.ClientIdVar) && Truthy(env, Server.ClientSecretVar)
             && PortVar in env && PyInt.ParseInt(env[PortVar]).None?)
      ==> r == Exit(1, InvalidPort(env[PortVar]))
    ensures r.Exit? && r.reason.InvalidPort? ==>
      PortVar in env && r.reason.text == env[PortVar] && PyInt.ParseInt(env[PortVar]).None?
    ensures r.Run? ==> r.server == Server.CreateServer(env).value
    ensures r.Run? ==>
      && (PortVar !in env ==> r.port == 8000)
      && (PortVar in env ==> PyInt.ParseInt(env[PortVar]) == Some(r.port))
      && (HostVar !in env ==> r.host == "0.0.0.0")
      && (HostVar in env ==> r.host == env[HostVar])
  {
    match Server.CreateServer(env)
    case Failure(e) => Exit(1, ConfigInvalid(e))
    case Success(server) =>
      var portText := GetenvOr(env, PortVar, DefaultPort);
      DefaultPortParses();
      match PyInt.ParseInt(portText)
      case None => Exit(1, InvalidPort(portText))
      case Some(port) => Run(server, GetenvOr(env, HostVar, DefaultHost), port)
  }

  /** The default port text reads as 8000. */
  lemma DefaultPortParses()
    ensures PyInt.ParseInt(DefaultPort) == Some(8000)
  {
    PyInt.DigitStringUnchanged(DefaultPort);
    assert DefaultPort[..3] == "800" && "800"[..2] == "80" && "80"[..1] == "8" && "8"[..0] == "";
    assert PyInt.DigitsValue("8") == 8;
    assert PyInt.DigitsValue("80") == 80;
    assert PyInt.DigitsValue("800") == 800;
    assert PyInt.DigitsValue(DefaultPort) == 8000;
  }

  /** Any integer written as `PORT`, negative or above 65535 included, is
      the port passed to `mcp.run`: `main` does no range check. */
  lemma PortNotRangeChecked(env: Environment, port: int)
    requires Truthy(env, Server.ClientIdVar) && Truthy(env, Server.ClientSecretVar)
    requires PortVar in env && env[PortVar] == PyInt.FormatInt(port)
    ensures Startup(env).Run? && Startup(env).port == port
  {
    PyInt.ParseFormat(port);
  }

  /** Two `PORT` texts that `int()` reads as the same number lead to the
      same outcome. Two texts that both fail to parse differ only in the
      text the exit reason carries. */
  lemma SamePortValueSameOutcome(env: Environment, text: string, other: string)
    requires PyInt.ParseInt(text).Some? && PyInt.ParseInt(text) == PyInt.ParseInt(other)
    ensures Startup(env[PortVar := text]) == Startup(env[PortVar := other])
  {
    assert PortVar != Server.ClientIdVar && PortVar != Server.ClientSecretVar;
    assert PortVar != Server.BaseUrlVar && PortVar != HostVar;
    var e1, e2 := env[PortVar := text], env[PortVar := other];
    forall v | v != PortVar
      ensures (v in e1 <==> v in e2) && (v in e1 ==> e1[v] == e2[v])
    {
    }
    assert Truthy(e1, Server.ClientIdVar) == Truthy(e2, Server.ClientIdVar);
    assert Truthy(e1, Server.ClientSecretVar) == Truthy(e2, Server.ClientSecretVar);
    assert Server.CreateServer(e1) == Server.CreateServer(e2);
    assert GetenvOr(e1, PortVar, DefaultPort) == text && GetenvOr(e2, PortVar, DefaultPort) == other;
    assert GetenvOr(e1, HostVar, DefaultHost) == GetenvOr(e2, HostVar, DefaultHost);
  }

  lemma LeadingZero8000()
    ensures PyInt.ParseInt("08000") == Some(8000)
  {
    DefaultPortParses();
    PyInt.LeadingZeroKeepsValue(DefaultPort);
    assert "0" + DefaultPort == "08000";
  }

  lemma PlusSign8000()
    ensures PyInt.ParseInt("+8000") == Some(8000)
  {
    DefaultPortParses();
    PyInt.PlusSignKeepsValue(DefaultPort);
    assert "+" + DefaultPort == "+8000";
  }

  lemma Underscore8000()
    ensures PyInt.ParseInt("8_000") == Some(8000)
  {
    DefaultPortParses();
    PyInt.UnderscoreKeepsValue("8", "000");
    assert "8" + "_" + "000" == "8_000" && "8" + "000" == DefaultPort;
  }

  lemma Padded8000()
    ensures PyInt.ParseInt(" 8000\n") == Some(8000)
  {
    DefaultPortParses();
    PyInt.SurroundingSpaceIgnored(" ", DefaultPort, "\n");
    assert " " + DefaultPort + "\n" == " 8000\n";
  }

  /** Spellings of 8000 other than its canonical one that `int()` accepts:
      a leading zero, a plus sign, an underscore between digits and
      surrounding whitespace. */
  lemma PortSpellingsOf8000()
    ensures PyInt.ParseInt("08000") == Some(8000)
    ensures PyInt.ParseInt("+8000") == Some(8000)
    ensures PyInt.ParseInt("8_000") == Some(8000)
    ensures PyInt.ParseInt(" 8000\n") == Some(8000)
  {
    LeadingZero8000();
    PlusSign8000();
    Underscore8000();
    Padded8000();
  }

  /** A `PORT` that is set but blank does not fall back to 8000: `int("")`
      raises, and the process exits with status 1 without reaching `mcp.run`. */
  lemma BlankPortExits(env: Environment)
    requires Truthy(env, Server.ClientIdVar) && Truthy(env, Server.ClientSecretVar)
    requires PortVar in env && PyInt.AllSpace(env[PortVar])
    ensures Startup(env) == Exit(1, InvalidPort(env[PortVar]))
  {
    PyInt.BlankDoesNotParse(env[PortVar]);
  }

  /** A missing credential is reported even when `PORT` is also invalid:
      the configuration check comes first. */
  lemma ConfigCheckedBeforePort(env: Environment, portText: string)
    requires !Truthy(env, Server.ClientIdVar) || !Truthy(env, Server.ClientSecretVar)
    ensures Startup(env[PortVar := portText]).Exit?
    ensures Startup(env[PortVar := portText]).reason.ConfigInvalid?
  {
    assert PortVar != Server.ClientIdVar && PortVar != Server.ClientSecretVar;
  }
}

=== FILE: env.dfy ===
/** The process environment as the server reads it through `os.getenv`.
    A variable is either absent (its name is not a key) or present with a
    string value, which may be the empty string. */
module Env {
  import opened Wrappers

  type Environment = map<string, string>

  /** `os.getenv(name)`: the value, or `None` when the variable is unset. */
  function Getenv(env: Environment, name: string): (r: Option<string>)
    ensures r.Some? <==> name in env
    ensures r.Some? ==> r.value == env[name]
  {
    if name in env then Some(env[name]) else None
  }

  /** `os.getenv(name, default)`: the default replaces only an ABSENT
      variable; a variable set to the empty string yields "". */
  function GetenvOr(env: Environment, name: string, default: string): (r: string)
    ensures name in env ==> r == env[name]
    ensures name !in env ==> r == default
  {
    Getenv(env, name).GetOr(default)
  }

  /** Python truthiness of `os.getenv(name)`: false for `None` and for "". */
  predicate Truthy(env: Environment, name: string): (b: bool)
    ensures b <==> Getenv(env, name) != None && Getenv(env, name) != Some("")
  {
    name in env && env[name] != ""
  }
}

=== FILE: pyint.dfy ===
/** Python's `int(text)` for base 10, as `main` applies it to `PORT`.

    Simplified model: leading and trailing ASCII whitespace (space, tab,
    line feed, vertical tab, form feed, carriage return) is stripped, one
    optional `+` or `-` sign is accepted, and the digits are ASCII `0`-`9`
    where single underscores may separate two digits. Leading zeros are
    allowed, as they are for an explicit base-10 `int()`. Non-ASCII digits
    and the other Unicode whitespace characters that CPython also accepts
    are not modelled, nor is the limit on the number of digits that
    CPython 3.11 and later enforces (4300 by default). Within those limits a
    string outside this grammar is `None`, where CPython raises
    `ValueError`. */
module PyInt {
  import opened Wrappers

  predicate IsDigit(c: char)
  {
    '0' <= c <= '9'
  }

  predicate IsSpace(c: char)
  {
    c == ' ' || '\t' <= c <= '\r'
  }

  predicate AllSpace(s: string)
  {
    forall i :: 0 <= i < |s| ==> IsSpace(s[i])
  }

  predicate AllDigits(s: string)
  {
    forall i :: 0 <= i < |s| ==> IsDigit(s[i])
  }

  function DigitChar(d: nat): (c: char)
    requires d < 10
    ensures IsDigit(c)
  {
    ('0' as int + d) as char
  }

  function TrimLeft(s: string): string
  {
    if |s| > 0 && IsSpace(s[0]) then TrimLeft(s[1..]) else s
  }

  function TrimRight(s: string): string
  {
    if |s| > 0 && IsSpace(s[|s| - 1]) then TrimRight(s[..|s| - 1]) else s
  }

  /** Python's `str.strip()` restricted to ASCII whitespace. */
  function Strip(s: string): string
  {
    TrimRight(TrimLeft(s))
  }

  /** Digits, optionally grouped by single underscores, that start and end
      with a digit. */
  predicate IsDigitGroups(s: string)
  {
    && |s| > 0
    && IsDigit(s[0])
    && IsDigit(s[|s| - 1])
    && forall i {:trigger s[i]} :: 0 <= i < |s| ==> IsDigit(s[i]) || (s[i] == '_' && i + 1 < |s| && IsDigit(s[i + 1]))
  }

  /** The decimal value of the digits of `s`, underscores skipped. */
  function DigitsValue(s: string): nat
  {
    if |s| == 0 then 0
    else
      var c := s[|s| - 1];
      if IsDigit(c) then DigitsValue(s[..|s| - 1]) * 10 + (c as int - '0' as int)
      else DigitsValue(s[..|s| - 1])
  }

  /** The characters `int()` can accept once whitespace is stripped: digits
      and underscores, a sign only in front, and a digit at the end. */
  predicate IntLiteralChars(t: string)
  {
    && |t| > 0
    && IsDigit(t[|t| - 1])
    && forall i :: 0 <= i < |t| ==> IsDigit(t[i]) || t[i] == '_' || (i == 0 && (t[i] == '+' || t[i] == '-'))
  }

  lemma SignedLiteralChars(t: string)
    requires |t| > 0 && (t[0] == '+' || t[0] == '-') && IsDigitGroups(t[1..])
    ensures IntLiteralChars(t)
  {
    var digits := t[1..];
    forall i | 0 <= i < |t|
      ensures IsDigit(t[i]) || t[i] == '_' || (i == 0 && (t[i] == '+' || t[i] == '-'))
    {
      if i > 0 {
        assert t[i] == digits[i - 1];
      }
    }
    assert t[|t| - 1] == digits[|digits| - 1];
  }

  /** `int(s)`: `Some(value)` where CPython returns a value, `None` where
      it raises `ValueError`. Text with any other character than those of
      `IntLiteralChars` once stripped (a letter, a dot, an inner space, a
      trailing sign) is rejected; a plain digit string always parses, and a
      negative value needs a leading minus sign. */
  function ParseInt(s: string): (r: Option<int>)
    ensures r.Some? ==> IntLiteralChars(Strip(s))
    ensures |s| > 0 && AllDigits(s) ==> r.Some?
    ensures r.Some? && r.value < 0 ==> |Strip(s)| > 0 && Strip(s)[0] == '-'
  {
    DigitStringUnchanged(s);
    var t := Strip(s);
    if |t| > 0 && (t[0] == '+' || t[0] == '-') then
      var digits := t[1..];
      var magnitude: int := DigitsValue(digits);
      if IsDigitGroups(digits) then
        SignedLiteralChars(t);
        Some(if t[0] == '-' then -magnitude else magnitude)
      else None
    else if IsDigitGroups(t) then Some(DigitsValue(t))
    else None
  }

  /** The canonical decimal spelling of `n`: no sign, no underscores, no
      leading zero. Its digits read back as `n`. */
  function FormatNat(n: nat): (r: string)
    ensures |r| > 0 && AllDigits(r)
    ensures |r| > 1 ==> r[0] != '0'
    ensures DigitsValue(r) == n
    decreases n
  {
    if n < 10 then [DigitChar(n)]
    else
      var init := FormatNat(n / 10);
      var r := init + [DigitChar(n % 10)];
      assert r[..|r| - 1] == init;
      r
  }

  /** `str(i)` for an integer: a minus sign for negatives, then the digits. */
  function FormatInt(i: int): string
  {
    if i < 0 then "-" + FormatNat(-i) else FormatNat(i)
  }

  lemma AllDigitsAreGroups(s: string)
    requires |s| > 0 && AllDigits(s)
    ensures IsDigitGroups(s)
  {
  }

  /** A string that does not start or end with whitespace is left alone by
      stripping. */
  lemma StripUnpadded(s: string)
    requires |s| > 0 && !IsSpace(s[0]) && !IsSpace(s[|s| - 1])
    ensures Strip(s) == s
  {
  }

  /** A non-empty digit string is its own stripped form and is well-formed. */
  lemma DigitStringUnchanged(s: string)
    ensures |s| > 0 && AllDigits(s) ==> Strip(s) == s && IsDigitGroups(s)
  {
    if |s| > 0 && AllDigits(s) {
      StripUnpadded(s);
      AllDigitsAreGroups(s);
    }
  }

  /** `int(str(i)) == i`: parsing inverts formatting for every integer,
      negative and out-of-port-range ones included. */
  lemma {:induction false} ParseFormat(i: int)
    ensures ParseInt(FormatInt(i)) == Some(i)
  {
    var s := FormatInt(i);
    if i < 0 {
      var d := FormatNat(-i);
      assert s[1..] == d;
      assert s[|s| - 1] == d[|d| - 1];
      StripUnpadded(s);
      AllDigitsAreGroups(d);
    } else {
      StripUnpadded(s);
      AllDigitsAreGroups(s);
    }
  }

  /** A digit string with a nonzero leading digit has a positive value. */
  lemma {:induction false} LeadingDigitPositive(s: string)
    requires |s| > 0 && AllDigits(s) && s[0] != '0'
    ensures DigitsValue(s) > 0
    decreases |s|
  {
    if |s| > 1 {
      var init := s[..|s| - 1];
      assert init[0] == s[0];
      LeadingDigitPositive(init);
    }
  }

  /** The converse of `ParseFormat` on canonical spellings: a string of
      digits without a leading zero is the formatting of its own value. */
  lemma {:induction false} FormatDigitsValue(s: string)
    requires |s| > 0 && AllDigits(s)
    requires |s| > 1 ==> s[0] != '0'
    ensures FormatNat(DigitsValue(s)) == s
    decreases |s|
  {
    var n := DigitsValue(s);
    var c := s[|s| - 1];
    var d := c as int - '0' as int;
    if |s| == 1 {
      assert s[..0] == "" && DigitsValue(s[..0]) == 0;
      assert IsDigit(c);
      assert n == d;
      assert FormatNat(n) == [DigitChar(d)];
      assert DigitChar(d) == c;
    } else {
      var init := s[..|s| - 1];
      assert init[0] == s[0];
      LeadingDigitPositive(init);
      FormatDigitsValue(init);
      assert n == DigitsValue(init) * 10 + d;
      assert n / 10 == DigitsValue(init) && n % 10 == d;
      assert DigitChar(d) == c;
      assert FormatNat(n) == FormatNat(n / 10) + [DigitChar(n % 10)];
      assert s == init + [c];
    }
  }

  /** Every string that parses without sign, padding, underscores or
      leading zeros is the canonical spelling of the value it parses to. */
  lemma CanonicalParse(s: string)
    requires |s| > 0 && AllDigits(s)
    requires |s| > 1 ==> s[0] != '0'
    ensures ParseInt(s).Some? && FormatInt(ParseInt(s).value) == s
  {
    StripUnpadded(s);
    AllDigitsAreGroups(s);
    FormatDigitsValue(s);
  }

  /** A leading zero does not change the value of a digit string. */
  lemma {:induction false} ZeroPrefixValue(s: string)
    ensures DigitsValue("0" + s) == DigitsValue(s)
    decreases |s|
  {
    var z := "0" + s;
    if |s| == 0 {
      assert z[..0] == "";
    } else {
      var init := s[..|s| - 1];
      assert z[..|z| - 1] == "0" + init;
      assert z[|z| - 1] == s[|s| - 1];
      ZeroPrefixValue(init);
    }
  }

  /** An underscore between two parts does not change the value. */
  lemma {:induction false} UnderscoreValue(a: string, b: string)
    ensures DigitsValue(a + "_" + b) == DigitsValue(a + b)
    decreases |b|
  {
    var u := a + "_" + b;
    if |b| == 0 {
      assert u[..|u| - 1] == a;
      assert a + b == a;
    } else {
      var init := b[..|b| - 1];
      assert u[..|u| - 1] == a + "_" + init;
      assert u[|u| - 1] == b[|b| - 1];
      assert (a + b)[..|a + b| - 1] == a + init;
      assert (a + b)[|a + b| - 1] == b[|b| - 1];
      UnderscoreValue(a, init);
    }
  }

  /** `int("+" + s) == int(s)` for a well-formed digit string. */
  lemma PlusSignKeepsValue(s: string)
    requires IsDigitGroups(s)
    ensures ParseInt("+" + s) == ParseInt(s) == Some(DigitsValue(s))
  {
    var p := "+" + s;
    assert p[|p| - 1] == s[|s| - 1];
    StripUnpadded(p);
    StripUnpadded(s);
    assert p[1..] == s;
  }

  /** `int("0" + s) == int(s)` for a well-formed digit string: leading
      zeros are accepted and ignored. */
  lemma LeadingZeroKeepsValue(s: string)
    requires IsDigitGroups(s)
    ensures ParseInt("0" + s) == ParseInt(s) == Some(DigitsValue(s))
  {
    var z := "0" + s;
    assert z[|z| - 1] == s[|s| - 1];
    forall i | 0 <= i < |z|
      ensures IsDigit(z[i]) || (z[i] == '_' && i + 1 < |z| && IsDigit(z[i + 1]))
    {
      if i > 0 {
        assert z[i] == s[i - 1];
        if z[i] == '_' {
          assert z[i + 1] == s[i];
        }
      }
    }
    assert IsDigitGroups(z);
    StripUnpadded(z);
    StripUnpadded(s);
    ZeroPrefixValue(s);
  }

  /** `int(a + "_" + b) == int(a + b)` for non-empty digit strings: a
      single underscore between digits is accepted and ignored. */
  lemma UnderscoreKeepsValue(a: string, b: string)
    requires |a| > 0 && AllDigits(a) && |b| > 0 && AllDigits(b)
    ensures ParseInt(a + "_" + b) == ParseInt(a + b) == Some(DigitsValue(a + b))
  {
    var u := a + "_" + b;
    var ab := a + b;
    assert forall i :: 0 <= i < |a| ==> u[i] == a[i] && ab[i] == a[i];
    assert forall i :: |a| < i < |u| ==> u[i] == b[i - |a| - 1];
    assert forall i :: |a| <= i < |ab| ==> ab[i] == b[i - |a|];
    assert u[|a|] == '_' && u[|a| + 1] == b[0];
    assert IsDigitGroups(u);
    assert AllDigits(ab);
    AllDigitsAreGroups(ab);
    StripUnpadded(u);
    StripUnpadded(ab);
    UnderscoreValue(a, b);
  }

  lemma {:induction false} TrimLeftSpaces(pre: string, s: string)
    requires AllSpace(pre)
    ensures TrimLeft(pre + s) == TrimLeft(s)
    decreases |pre|
  {
    if |pre| == 0 {
      assert pre + s == s;
    } else {
      assert (pre + s)[0] == pre[0];
      assert (pre + s)[1..] == pre[1..] + s;
      TrimLeftSpaces(pre[1..], s);
    }
  }

  lemma {:induction false} TrimRightSpaces(s: string, post: string)
    requires AllSpace(post)
    ensures TrimRight(s + post) == TrimRight(s)
    decreases |post|
  {
    if |post| == 0 {
      assert s + post == s;
    } else {
      var p := post[..|post| - 1];
      assert (s + post)[|s + post| - 1] == post[|post| - 1];
      assert (s + post)[..|s + post| - 1] == s + p;
      TrimRightSpaces(s, p);
    }
  }

  lemma {:induction false} TrimLeftAllSpace(s: string)
    requires AllSpace(s)
    ensures TrimLeft(s) == ""
    decreases |s|
  {
    if |s| > 0 {
      TrimLeftAllSpace(s[1..]);
    }
  }

  /** Trailing text survives left-trimming of a string that is not blank. */
  lemma {:induction false} TrimLeftAppend(s: string, post: string)
    requires !AllSpace(s)
    ensures TrimLeft(s + post) == TrimLeft(s) + post
    decreases |s|
  {
    assert |s| > 0;
    if IsSpace(s[0]) {
      assert (s + post)[1..] == s[1..] + post;
      TrimLeftAppend(s[1..], post);
    }
  }

  /** A blank (empty or all-whitespace) string never parses: CPython
      raises `ValueError` for `int("")`. */
  lemma BlankDoesNotParse(s: string)
    requires AllSpace(s)
    ensures ParseInt(s).None?
  {
    TrimLeftAllSpace(s);
  }

  /** Whitespace around the text does not change what `int()` returns. */
  lemma SurroundingSpaceIgnored(pre: string, s: string, post: string)
    requires AllSpace(pre) && AllSpace(post)
    ensures ParseInt(pre + s + post) == ParseInt(s)
  {
    assert pre + s + post == pre + (s + post);
    TrimLeftSpaces(pre, s + post);
    if AllSpace(s) {
      assert AllSpace(s + post);
      TrimLeftAllSpace(s + post);
      TrimLeftAllSpace(s);
    } else {
      TrimLeftAppend(s, post);
      TrimRightSpaces(TrimLeft(s), post);
    }
  }
}

=== FILE: server.dfy ===
/** `create_server`: validation of the required GitHub OAuth credentials
    and construction of the `GitHubProvider` and `FastMCP` arguments from
    the environment. The FastMCP objects themselves are external; the model
    keeps the values handed to them. */
module Server {
  import opened Wrappers
  import opened Env
  import Text

  const ClientIdVar: string := "GITHUB_CLIENT_ID"
  const ClientSecretVar: string := "GITHUB_CLIENT_SECRET"
  const BaseUrlVar: string := "BASE_URL"

  /** The required variables, in the order they are checked and reported. */
  const RequiredEnvVars: seq<string> := [ClientIdVar, ClientSecretVar]

  const DefaultBaseUrl: string := "http://localhost:8000"
  const RedirectPath: string := "/auth/callback"
  const RequiredScopes: seq<string> := ["user:email"]
  const ServerName: string := "GitHub OAuth Example Server"
  const HealthPath: string := "/health"
  const MissingVarsPrefix: string := "Missing required environment variables: "

  /** The keyword arguments given to `GitHubProvider`. */
  datatype ProviderConfig = ProviderConfig(
    clientId: string,
    clientSecret: string,
    baseUrl: string,
    redirectPath: string,
    requiredScopes: seq<string>)

  /** The arguments given to `FastMCP`: its name, the OAuth provider and the
      paths of the extra routes. */
  datatype ServerConfig = ServerConfig(name: string, auth: ProviderConfig, routes: seq<string>)

  /** The `ValueError` raised when required variables are missing. */
  datatype ConfigError = MissingEnvVars(missing: seq<string>) {
    /** The exception text: the prefix, then every missing name joined
        with ", ". */
    function Message(): string
    {
      MissingVarsPrefix + Text.Join(", ", missing)
    }
  }

  /** A required variable counts as missing when `os.getenv` is falsy:
      unset, or set to the empty string. */
  predicate IsMissing(env: Environment, name: string)
  {
    !Truthy(env, name)
  }

  /** The list comprehension over the required names: those that are
      missing, in their declared order. */
  function MissingVars(env: Environment, names: seq<string>): (r: seq<string>)
    ensures forall v :: v in r <==> v in names && IsMissing(env, v)
    ensures |r| <= |names|
    ensures |r| == |names| <==> forall v :: v in names ==> IsMissing(env, v)
  {
    if |names| == 0 then []
    else
      var rest := MissingVars(env, names[1..]);
      assert forall v :: v in names <==> v == names[0] || v in names[1..];
      if IsMissing(env, names[0]) then [names[0]] + rest else rest
  }

  /** `create_server`: fails with every missing required variable at once,
      or yields the provider configuration built from the environment. */
  function CreateServer(env: Environment): (r: Result<ServerConfig, ConfigError>)
    ensures r.Failure? <==> IsMissing(env, ClientIdVar) || IsMissing(env, ClientSecretVar)
    ensures r.Failure? ==> (r.error.missing ==
      (if IsMissing(env, ClientIdVar) then [ClientIdVar] else [])
      + (if IsMissing(env, ClientSecretVar) then [ClientSecretVar] else []))
    ensures r.Success? ==>
      && ClientIdVar in env && ClientSecretVar in env
      && r.value.auth.clientId == env[ClientIdVar] != ""
      && r.value.auth.clientSecret == env[ClientSecretVar] != ""
    ensures r.Success? ==>
      && (BaseUrlVar in env ==> r.value.auth.baseUrl == env[BaseUrlVar])
      && (BaseUrlVar !in env ==> r.value.auth.baseUrl == "http://localhost:8000")
    ensures r.Success? ==>
      && r.value.auth.requiredScopes == ["user:email"]
      && r.value.auth.redirectPath == "/auth/callback"
  {
    var missing := MissingVars(env, RequiredEnvVars);
    assert RequiredEnvVars[1..] == [ClientSecretVar];
    assert MissingVars(env, [ClientSecretVar][1..]) == [];
    if |missing| > 0 then Failure(MissingEnvVars(missing))
    else
      assert ClientIdVar in RequiredEnvVars && ClientSecretVar in RequiredEnvVars;
      var auth := ProviderConfig(
        env[ClientIdVar],
        env[ClientSecretVar],
        GetenvOr(env, BaseUrlVar, DefaultBaseUrl),
        RedirectPath,
        RequiredScopes);
      Success(ServerConfig(ServerName, auth, [HealthPath]))
  }

  /** The message of a configuration error names each missing variable. */
  lemma MessageNamesEach(e: ConfigError, i: nat)
    requires i < |e.missing|
    ensures Text.Contains(e.Message(), e.missing[i])
  {
    Text.JoinContainsEach(", ", e.missing, i);
    Text.ContainsAfterPrefix(MissingVarsPrefix, Text.Join(", ", e.missing), e.missing[i]);
  }

  /** All missing variables are reported at once: the error message of a
      failed `create_server` names each one of them. */
  lemma ErrorNamesEveryMissingVar(env: Environment, v: string)
    requires v in RequiredEnvVars && IsMissing(env, v)
    ensures CreateServer(env).Failure?
    ensures Text.Contains(CreateServer(env).error.Message(), v)
  {
    var e := CreateServer(env).error;
    assert v in e.missing;
    var i :| 0 <= i < |e.missing| && e.missing[i] == v;
    MessageNamesEach(e, i);
  }

  /** The three messages `create_server` can raise: the prefix followed by
      the missing names, separated by ", " when both are missing. */
  lemma ErrorMessages()
    ensures MissingEnvVars([ClientIdVar, ClientSecretVar]).Message()
      == MissingVarsPrefix + ClientIdVar + ", " + ClientSecretVar
    ensures MissingEnvVars([ClientIdVar]).Message() == MissingVarsPrefix + ClientIdVar
    ensures MissingEnvVars([ClientSecretVar]).Message() == MissingVarsPrefix + ClientSecretVar
  {
    var both := [ClientIdVar, ClientSecretVar];
    assert both[1..] == [ClientSecretVar];
    var j := Text.Join(", ", both);
    assert Text.Join(", ", [ClientSecretVar]) == ClientSecretVar;
    assert j == both[0] + ", " + Text.Join(", ", both[1..]);
    assert j == ClientIdVar + ", " + ClientSecretVar;
    assert MissingVarsPrefix + j == MissingVarsPrefix + ClientIdVar + ", " + ClientSecretVar;
  }

  /** `BASE_URL` set to "" is kept as "", although the same value for a
      required variable is rejected: defaults replace only unset values. */
  lemma EmptyBaseUrlKept(env: Environment)
    requires Truthy(env, ClientIdVar) && Truthy(env, ClientSecretVar)
    requires BaseUrlVar in env && env[BaseUrlVar] == ""
    ensures CreateServer(env).Success? && CreateServer(env).value.auth.baseUrl == ""
    ensures !CreateServer(env[ClientIdVar := ""]).Success?
  {
  }
}

=== FILE: text.dfy ===
/** String helpers: Python's `sep.join(items)` and a substring predicate to
    state what a joined message mentions. */
module Text {

  /** `s` occurs in `t` starting at index `k`. */
  predicate OccursAt(s: string, t: string, k: nat)
  {
    k + |s| <= |t| && t[k..k + |s|] == s
  }

  /** `s` is a substring of `t` (Python's `s in t`). */
  predicate Contains(t: string, s: string)
  {
    exists k: nat | k <= |t| :: OccursAt(s, t, k)
  }

  /** The combined length of `items`. */
  function TotalLength(items: seq<string>): nat
  {
    if |items| == 0 then 0 else |items[0]| + TotalLength(items[1..])
  }

  /** Python's `sep.join(items)`: the items in order with exactly one
      separator between each neighbouring pair, so the result starts with
      the first item and is as long as the items plus `|items| - 1`
      separators. */
  function Join(sep: string, items: seq<string>): (r: string)
    ensures |items| == 0 ==> r == ""
    ensures |items| > 0 ==> |r| == TotalLength(items) + (|items| - 1) * |sep|
    ensures |items| > 0 ==> r[..|items[0]|] == items[0]
  {
    if |items| == 0 then ""
    else if |items| == 1 then items[0]
    else items[0] + sep + Join(sep, items[1..])
  }

  /** Every joined item appears verbatim in the joined string. */
  lemma {:induction false} JoinContainsEach(sep: string, items: seq<string>, i: nat)
    requires i < |items|
    ensures Contains(Join(sep, items), items[i])
    decreases |items|
  {
    var j := Join(sep, items);
    if i == 0 {
      if |items| == 1 {
        assert OccursAt(items[0], j, 0);
      } else {
        assert j[0..|items[0]|] == items[0];
        assert OccursAt(items[0], j, 0);
      }
    } else {
      var rest := Join(sep, items[1..]);
      assert items[1..][i - 1] == items[i];
      JoinContainsEach(sep, items[1..], i - 1);
      var k: nat :| k <= |rest| && OccursAt(items[i], rest, k);
      var off := |items[0]| + |sep|;
      assert j == items[0] + sep + rest;
      assert |j| == off + |rest|;
      assert k + |items[i]| <= |rest|;
      assert j[off..] == rest;
      assert j[off + k..off + k + |items[i]|] == rest[k..k + |items[i]|];
      assert OccursAt(items[i], j, off + k);
    }
  }

  /** Prepending text keeps every substring. */
  lemma ContainsAfterPrefix(p: string, t: string, s: string)
    requires Contains(t, s)
    ensures Contains(p + t, s)
  {
    var k: nat :| k <= |t| && OccursAt(s, t, k);
    assert (p + t)[|p| + k..|p| + k + |s|] == t[k..k + |s|];
    assert OccursAt(s, p + t, |p| + k);
  }
}

=== FILE: tools.dfy ===
/** The bodies of the four tools registered by `create_server`, as pure
    projections from the verified access token's claims (and, for
    `get_oauth_status`, the environment) to the returned JSON object.
    Obtaining the token (`get_access_token`), verifying it and routing a
    call to a tool are FastMCP's and are not modelled: the claims arrive
    as a parameter. */
module Tools {
  import opened Env
  import Server

  /** A JSON value as returned to the MCP client. `Null` is Python's `None`. */
  datatype Value =
    | Null
    | Bool(b: bool)
    | Int(i: int)
    | Str(s: string)
    | List(items: seq<Value>)
    | Object(fields: map<string, Value>)

  /** The claims of the access token, by claim name. */
  type Claims = map<string, Value>

  /** A tool's result: the returned dictionary. */
  type Record = map<string, Value>

  datatype Tool = GetUserInfo | GetServerInfo | GetOAuthStatus | Ping

  /** `claims.get(name)`: `None` for an absent claim. */
  function Claim(claims: Claims, name: string): (r: Value)
    ensures name in claims ==> r == claims[name]
    ensures r == Null <==> name !in claims || claims[name] == Null
  {
    if name in claims then claims[name] else Null
  }

  /** The keys of `get_user_info`'s result, listed as in the source. The
      result itself is a map, so this order is not kept. */
  const UserInfoKeys: seq<string> := [
    "github_user", "name", "email", "avatar_url", "company", "location",
    "public_repos", "followers", "following", "bio", "blog",
    "created_at", "updated_at"
  ]

  /** The claim each `get_user_info` key is read from: `github_user` is
      the GitHub `login`; every other key is the claim of its own name. */
  function UserInfoSource(key: string): string
  {
    if key == "github_user" then "login" else key
  }

  /** A `get_user_info` record over `keys`: one entry per key, each read
      from the claim `UserInfoSource` names for it. */
  function ProjectUserInfo(claims: Claims, keys: seq<string>): (r: Record)
    ensures r.Keys == set k | k in keys
    ensures forall k :: k in r ==> r[k] == Claim(claims, UserInfoSource(k))
  {
    if |keys| == 0 then map[]
    else
      var key := keys[|keys| - 1];
      var init := keys[..|keys| - 1];
      assert forall k :: k in keys <==> k in init || k == key;
      ProjectUserInfo(claims, init)[key := Claim(claims, UserInfoSource(key))]
  }

  /** `get_user_info`: thirteen keys, each the claim it is read from, or
      `None` when the token lacks that claim. */
  function UserInfo(claims: Claims): (r: Record)
    ensures r.Keys == set k | k in UserInfoKeys
    ensures forall k :: k in r ==> r[k] == Claim(claims, UserInfoSource(k))
    ensures r["github_user"] == Claim(claims, "login")
  {
    assert UserInfoKeys[0] == "github_user";
    ProjectUserInfo(claims, UserInfoKeys)
  }

  /** The thirteen keys are distinct, so the result has thirteen entries. */
  lemma UserInfoSize(claims: Claims)
    ensures |UserInfo(claims)| == 13
  {
    var keys := UserInfoKeys;
    assert forall i, j :: 0 <= i < j < |keys| ==> keys[i] != keys[j];
    DistinctCard(keys);
  }

  /** A sequence without repeats has as many distinct elements as entries. */
  lemma {:induction false} DistinctCard(keys: seq<string>)
    requires forall i, j :: 0 <= i < j < |keys| ==> keys[i] != keys[j]
    ensures |set k | k in keys| == |keys|
    decreases |keys|
  {
    if |keys| > 0 {
      var init := keys[..|keys| - 1];
      var key := keys[|keys| - 1];
      DistinctCard(init);
      assert (set k | k in keys) == (set k | k in init) + {key};
      assert key !in init;
    }
  }

  const ServerInfoKeys: set<string> := {
    "server_name", "version", "auth_provider", "transport", "container",
    "build_system", "endpoints", "supported_architectures"
  }

  /** `get_server_info`: a fixed description of the server. */
  function ServerInfo(): (r: Record)
    ensures r.Keys == ServerInfoKeys
    ensures r["version"] == Str("0.1.0")
    ensures r["endpoints"] == Object(map[
      "mcp" := Str("/mcp/"), "health" := Str("/health"), "oauth_callback" := Str("/auth/callback")])
  {
    map[
      "server_name" := Str("FastMCP GitHub OAuth Example"),
      "version" := Str("0.1.0"),
      "auth_provider" := Str("GitHub OAuth"),
      "transport" := Str("HTTP Streamable"),
      "container" := Str("Docker Multi-arch"),
      "build_system" := Str("GoReleaser + uv"),
      "endpoints" := Object(map[
        "mcp" := Str("/mcp/"),
        "health" := Str(Server.HealthPath),
        "oauth_callback" := Str(Server.RedirectPath)
      ]),
      "supported_architectures" := List([Str("linux/amd64"), Str("linux/arm64")])
    ]
  }

  const OAuthStatusKeys: set<string> := {
    "authenticated", "user", "scopes", "token_type", "auth_provider",
    "client_id", "base_url"
  }

  /** `get_oauth_status`: authentication facts from the claims and the
      public part of the OAuth configuration, read from the environment
      with the same default as `create_server`. */
  function OAuthStatus(claims: Claims, env: Environment): (r: Record)
    ensures r.Keys == OAuthStatusKeys
    ensures r["authenticated"] == Bool(true)
    ensures r["user"] == Claim(claims, "login")
    ensures "scopes" in claims ==> r["scopes"] == claims["scopes"]
    ensures "scopes" !in claims ==> r["scopes"] == List([])
    ensures r["client_id"] == (if "GITHUB_CLIENT_ID" in env then Str(env["GITHUB_CLIENT_ID"]) else Null)
    ensures r["base_url"] == Str(if "BASE_URL" in env then env["BASE_URL"] else "http://localhost:8000")
  {
    map[
      "authenticated" := Bool(true),
      "user" := Claim(claims, "login"),
      "scopes" := if "scopes" in claims then claims["scopes"] else List([]),
      "token_type" := Str("Bearer"),
      "auth_provider" := Str("GitHub"),
      "client_id" := if Server.ClientIdVar in env then Str(env[Server.ClientIdVar]) else Null,
      "base_url" := Str(GetenvOr(env, Server.BaseUrlVar, Server.DefaultBaseUrl))
    ]
  }

  /** `ping`: a fixed reply. The timestamp is the literal template text
      written in the source, not a clock reading. */
  function PingReply(): (r: Record)
    ensures r.Keys == {"message", "timestamp", "server"}
    ensures r["message"] == Str("pong")
  {
    map[
      "message" := Str("pong"),
      "timestamp" := Str("{{ .Date }}"),
      "server" := Str("FastMCP GitHub OAuth Example")
    ]
  }

  /** The keys a tool's result always has. */
  function ResultKeys(tool: Tool): set<string>
  {
    match tool
    case GetUserInfo => set k | k in UserInfoKeys
    case GetServerInfo => ServerInfoKeys
    case GetOAuthStatus => OAuthStatusKeys
    case Ping => {"message", "timestamp", "server"}
  }

  /** The result of calling `tool` once FastMCP has accepted the token
      whose claims are `claims`. `get_server_info` and `ping` ignore the
      token and the environment entirely. */
  function Call(tool: Tool, claims: Claims, env: Environment): (r: Record)
    ensures r.Keys == ResultKeys(tool)
    ensures tool == GetServerInfo || tool == Ping ==> r == Call(tool, map[], map[])
  {
    match tool
    case GetUserInfo => UserInfo(claims)
    case GetServerInfo => ServerInfo()
    case GetOAuthStatus => OAuthStatus(claims, env)
    case Ping => PingReply()
  }

  /** `get_user_info` reads nothing but the thirteen source claims: two
      tokens that agree on those give the same result. */
  lemma UserInfoReadsOnlySources(c1: Claims, c2: Claims)
    requires forall k :: k in UserInfoKeys ==> Claim(c1, UserInfoSource(k)) == Claim(c2, UserInfoSource(k))
    ensures UserInfo(c1) == UserInfo(c2)
  {
    var r1, r2 := UserInfo(c1), UserInfo(c2);
    assert r1.Keys == r2.Keys;
    forall k | k in r1
      ensures r1[k] == r2[k]
    {
    }
  }

  /** `get_oauth_status` does not depend on the client secret: changing or
      unsetting `GITHUB_CLIENT_SECRET` leaves its result unchanged, so the
      secret cannot appear in it. */
  lemma OAuthStatusHidesSecret(claims: Claims, env: Environment, secret: string)
    ensures OAuthStatus(claims, env[Server.ClientSecretVar := secret]) == OAuthStatus(claims, env)
    ensures OAuthStatus(claims, env - {Server.ClientSecretVar}) == OAuthStatus(claims, env)
  {
    var r := OAuthStatus(claims, env);
    var e1 := env[Server.ClientSecretVar := secret];
    var e2 := env - {Server.ClientSecretVar};
    assert Server.ClientIdVar != Server.ClientSecretVar && Server.BaseUrlVar != Server.ClientSecretVar;
    assert GetenvOr(e1, Server.BaseUrlVar, Server.DefaultBaseUrl) == GetenvOr(env, Server.BaseUrlVar, Server.DefaultBaseUrl);
    assert GetenvOr(e2, Server.BaseUrlVar, Server.DefaultBaseUrl) == GetenvOr(env, Server.BaseUrlVar, Server.DefaultBaseUrl);
  }

  /** With the environment `create_server` accepted, `get_oauth_status`
      reports the same client id and base URL the OAuth provider was
      configured with. */
  lemma OAuthStatusAgreesWithProvider(claims: Claims, env: Environment)
    requires Server.CreateServer(env).Success?
    ensures var auth := Server.CreateServer(env).value.auth;
      && OAuthStatus(claims, env)["client_id"] == Str(auth.clientId)
      && OAuthStatus(claims, env)["base_url"] == Str(auth.baseUrl)
  {
  }
}

=== FILE: wrappers.dfy ===
/** The two sum types the model uses in place of Python's `None` and
    raised exceptions: `Option` for a value that may be absent (an unset
    environment variable, a string that does not parse) and `Result` for an
    operation that either succeeds or fails with a described error. */
module Wrappers {

  datatype Option<+T> = None | Some(value: T) {

    /** The value, or `default` when there is none. */
    function GetOr(default: T): T {
      match this
      case Some(v) => v
      case None => default
    }
  }

  datatype Result<+R, +E> = Success(value: R) | Failure(error: E)
}
